=== FILE: README.md ===
# customizable-hud: the HUD preference service and HUD settings, in Dafny

This project models the three pieces of sequential logic in the
customizable-hud repository, a cycling heads-up-display configurator.

- **HudRoutes** (`hud_routes.dfy`) is the per-user preference service in
  `hud-backend/routes/hud.js`. A middleware checks the `Authorization: Bearer
  <token>` header and verifies the token. A GET then returns the caller's
  stored row, and a POST validates the body and upserts the caller's row.
  The Postgres table is a `map<UserId, Preference>`. A request is handled by
  the pure function `Handle`, which returns the response and the new table.
  Firebase token verification is the function parameter `verify`.
- **HudSettings** (`hud_settings.dfy`) is the settings state of the
  `useHudSettings` hook. It has a fixed `Settings` record, the defaults, and
  the hook's transitions: the shallow update, the layout update, the metric
  toggle, the fullscreen flip, reset, export, import and the initial load.
  `JSON.parse` and `JSON.stringify` are function parameters.
- **MetricSelection** (`metric_selection.dfy`) is the metric picker of the
  set-up page. It covers the toggle over a list of at most three metric ids,
  the labels shown for the ids, and the signed-in guard in front of saving.

`wrappers.dfy` holds `Option`. `json.dfy` holds the JSON values a request
body can carry, and JavaScript truthiness over them.

Three points about what the route accepts and answers:

- `layout` is accepted whenever it is truthy; `false`, `0`, `null`, `""` and
  a missing field are rejected. Any other JSON value, such as `5` or
  `["x"]`, passes the guard.
- There is no storage-error response: the route has no error handling
  around its queries (what a failed query leads to is under Left out).
- The 400 body is always `{ error: 'Invalid input' }`.

## Model

| member | source | states |
|---|---|---|
| `HudRoutes.UntilSeparator` | hud-backend/routes/hud.js:13 | The piece `split` yields is a prefix of the text that contains no occurrence of the separator, and it ends where the first occurrence begins, or at the end of the text |
| `HudRoutes.BearerTokenOfHeader` | hud-backend/routes/hud.js:13 | For a header `"Bearer " + t` where `t` contains no further `"Bearer "`, the extracted token is exactly `t` |
| `HudRoutes.BearerToken` | hud-backend/routes/hud.js:13 | The token is the text after the `"Bearer "` prefix up to the next `"Bearer "`, or to the end of the header when there is none; no `"Bearer "` starts inside it |
| `HudRoutes.Authenticate` | hud-backend/routes/hud.js:7-21 | A missing header, or one without the `"Bearer "` prefix, never authenticates; a user id is only ever one that `verify` returns |
| `HudRoutes.ValidTokenAuthenticates` | hud-backend/routes/hud.js:13-17 | A header `"Bearer " + t`, where `t` holds no further `"Bearer "` and verifies as user `u`, authenticates as `u` |
| `HudRoutes.PrefixedHeaderVerifiesItsToken` | hud-backend/routes/hud.js:13-17 | For every header that starts with `"Bearer "`, the gate's answer is `verify` applied to the split token, so with `BearerToken`'s contract the user is pinned for every header, one with a second `"Bearer "` included |
| `HudRoutes.Handle` | hud-backend/routes/hud.js:7-55 | The response is 401 exactly when authentication fails, and a 401 is always `{error:'Unauthorized'}` with the table untouched; GET never writes; no non-200 response writes |
| `HudRoutes.MissingOrMalformedHeaderRejected` | hud-backend/routes/hud.js:8-11 | A missing header, or one without the prefix, gives 401 `Unauthorized` with the table unchanged, whatever the verifier would answer |
| `HudRoutes.InvalidTokenRejectedAlike` | hud-backend/routes/hud.js:14-20 | A prefixed header whose token fails verification gets the same 401 body as a missing header; the answer is the same for every table, so the table is not read, and it is not written |
| `HudRoutes.KeyedByVerifiedUser` | hud-backend/routes/hud.js:24-55 | Once authenticated as `uid`, the response depends only on the table's entry for `uid`, and no other user's entry changes, whatever the body holds |
| `HudRoutes.Fetch` | hud-backend/routes/hud.js:24-34 | The GET handler answers 200 exactly when the caller has a row, and then with that row; otherwise it answers 404 `No config found` |
| `HudRoutes.Upsert` | hud-backend/routes/hud.js:37-55 | The POST handler answers 200 exactly when the body is valid. An invalid body gets 400 `Invalid input` with the table unchanged. A valid one replaces the caller's row with `(metrics, layout, thresholds or {})`, adds no key but the caller's, leaves every other row as it was, and echoes the stored row |
| `HudRoutes.GetReturnsOwnRow` | hud-backend/routes/hud.js:24-34 | GET answers 404 `No config found` exactly when the caller has no row, otherwise 200 with that row's metrics, layout and thresholds; the table is unchanged |
| `HudRoutes.PostRejectsInvalidBody` | hud-backend/routes/hud.js:39-43 | POST answers 400 `Invalid input` exactly when `metrics` is not an array or `layout` is missing, null, false, 0 or `""`; the table is then unchanged |
| `HudRoutes.PostReplacesOwnRow` | hud-backend/routes/hud.js:45-54 | A valid POST stores `(metrics, layout, thresholds or {})` for the caller, replacing any earlier row in full; the other rows and the set of other keys are unchanged; the reply is `{success:true, config:<stored row>}` |
| `HudRoutes.PostThenGetRoundTrip` | hud-backend/routes/hud.js:24-54 | After a successful POST, a GET by the same user returns the posted metrics and layout, and the posted thresholds when they are present and truthy, `{}` otherwise |
| `HudRoutes.PostIdempotent` | hud-backend/routes/hud.js:45-54 | Repeating a POST leaves the same table and gives the same response as doing it once, apart from `updated_at`, which is not modelled |
| `HudRoutes.OtherUsersIsolated` | hud-backend/routes/hud.js:24-55 | No request by user A changes what a GET by a different user B returns |
| `Json.Truthy` | hud-backend/routes/hud.js:41-51 | A JSON value is falsy exactly when it is `null`, `false`, `0` or `""`; empty arrays and objects are truthy |
| `HudSettings.UpdateSettings` | front_end/back_end/both/src/hooks/useHudSettings.ts:81-83 | Each top-level field the update has takes the update's value whole, so nested `enabledMetrics` and `units` are replaced and not merged; every other field keeps its value |
| `HudSettings.UpdateSettingsUnique` | front_end/back_end/both/src/hooks/useHudSettings.ts:81-83 | Those two properties determine the result: any settings that have them equal the shallow spread |
| `HudSettings.UpdateWithEverything` | front_end/back_end/both/src/hooks/useHudSettings.ts:132 | Spreading an object that has every settings field over any base gives exactly that object's settings |
| `HudSettings.UpdateLayout` | front_end/back_end/both/src/hooks/useHudSettings.ts:85-87 | The layout becomes the given one, and every other field is unchanged |
| `HudSettings.KeyOfName` | front_end/back_end/both/src/hooks/useHudSettings.ts:90-91 | An id selects a metric key exactly when it is that key's name (`speed`, `heartRate`, `cadence`, `power`) |
| `HudSettings.WithFlag` | front_end/back_end/both/src/hooks/useHudSettings.ts:93-96 | `{...enabledMetrics, [key]: b}` sets that key's flag and leaves the other three as they were |
| `HudSettings.ToggleMetric` | front_end/back_end/both/src/hooks/useHudSettings.ts:89-100 | For one of the four keys, it negates that flag only, `activeMetric` becomes null if it was the id and the id otherwise, and no field other than these two changes; any other id changes nothing |
| `HudSettings.ToggleMetricTwice` | front_end/back_end/both/src/hooks/useHudSettings.ts:89-100 | Toggling the same key twice restores `enabledMetrics` and every field except `activeMetric`, which ends as the id if it was the id and as null otherwise |
| `HudSettings.ToggleFullscreen` | front_end/back_end/both/src/hooks/useHudSettings.ts:102-103 | `isFullscreen` flips, and it is the only field that changes |
| `HudSettings.ToggleFullscreenTwice` | front_end/back_end/both/src/hooks/useHudSettings.ts:102-103 | Flipping twice restores the settings exactly |
| `HudSettings.ResetSettings` | front_end/back_end/both/src/hooks/useHudSettings.ts:117-118 | From any settings, reset gives `defaultSettings`: layout grid-2x2, all four metrics on, km/h, km and C, 250 ms, simulated data, no active metric, not fullscreen, dark theme and glass effect on |
| `HudSettings.ImportSettings` | front_end/back_end/both/src/hooks/useHudSettings.ts:126-141 | The import is accepted exactly when the text parses to an object. A refused import keeps the settings. An accepted one takes every field the object has, and every field the object lacks takes its default |
| `HudSettings.ImportForgetsCurrent` | front_end/back_end/both/src/hooks/useHudSettings.ts:131-134 | An accepted import's result does not depend on the settings it replaces |
| `HudSettings.LoadSettings` | front_end/back_end/both/src/hooks/useHudSettings.ts:59-70 | A missing or empty stored entry loads the defaults |
| `HudSettings.LoadIsImportOverDefaults` | front_end/back_end/both/src/hooks/useHudSettings.ts:59-70 | Loading a stored text gives what importing it would give, and the defaults where an import would be refused (parse failure or non-object) |
| `HudSettings.ExportImportRoundTrip` | front_end/back_end/both/src/hooks/useHudSettings.ts:122-141 | Given a `JSON.parse` that reads back what `JSON.stringify` writes, importing exported settings is accepted and restores them exactly, whatever the current settings |
| `HudSettings.SaveThenLoad` | front_end/back_end/both/src/hooks/useHudSettings.ts:59-79 | Given the same faithful JSON pair, what the save effect writes is what the next initial load restores |
| `MetricSelection.Without` | front_end/ride-hud-joyride-setup-main/src/pages/Index.tsx:118 | The filter removes every occurrence of the metric, keeps every other id as often as it was, and keeps their relative order (the result is a subsequence) |
| `MetricSelection.Toggle` | front_end/ride-hud-joyride-setup-main/src/pages/Index.tsx:111-123 | A selected metric is removed with the rest kept in order; an unselected one is appended at the end when fewer than 3 are selected; when the button is disabled (unselected, 3 selected) the selection is unchanged |
| `MetricSelection.DisabledExactlyWhenNoOp` | front_end/ride-hud-joyride-setup-main/src/pages/Index.tsx:111-122 | A button is disabled exactly when its metric is unselected and a click on it would leave the selection unchanged |
| `MetricSelection.WithoutKeepsDistinct` | front_end/ride-hud-joyride-setup-main/src/pages/Index.tsx:118 | Filtering a list without duplicates leaves a list without duplicates |
| `MetricSelection.ToggleKeepsWellFormed` | front_end/ride-hud-joyride-setup-main/src/pages/Index.tsx:115-123 | If the selection has at most 3 ids and no duplicates, every toggle keeps both |
| `MetricSelection.WithoutAppended` | front_end/ride-hud-joyride-setup-main/src/pages/Index.tsx:118-120 | Filtering out a metric that was appended to a list without it gives back the list |
| `MetricSelection.ToggleTwiceRestores` | front_end/ride-hud-joyride-setup-main/src/pages/Index.tsx:116-120 | Toggling an unselected metric while there is room, then toggling it again, restores the original selection |
| `MetricSelection.InitialSelectionWellFormed` | front_end/ride-hud-joyride-setup-main/src/pages/Index.tsx:39 | The initial selection `speed, heart_rate, cadence` has at most 3 distinct ids, all offered, and the six offered ids are distinct |
| `MetricSelection.IndexOf` | front_end/ride-hud-joyride-setup-main/src/pages/Index.tsx:126 | The index found is that of the first occurrence of the character, or the length when there is none |
| `MetricSelection.ReplaceFirst` | front_end/ride-hud-joyride-setup-main/src/pages/Index.tsx:126 | `replace` with a one-character pattern keeps the length, changes only the first occurrence, and returns a text without the character unchanged |
| `MetricSelection.ToUpper` | front_end/ride-hud-joyride-setup-main/src/pages/Index.tsx:126 | On ASCII text, `toUpperCase` keeps the length, turns each ASCII lower-case letter into its capital, keeps every other character, and leaves no lower-case letter |
| `MetricSelection.ButtonLabel` | front_end/ride-hud-joyride-setup-main/src/pages/Index.tsx:126 | For every id, the caption has the id's length and no lower-case letter; the first underscore shows as a space, and every other character is the id's own up to ASCII case |
| `MetricSelection.HeartRateLabels` | front_end/ride-hud-joyride-setup-main/src/pages/Index.tsx:126 | `heart_rate` is shown as `heart rate` in the Selected line and as `HEART RATE` on its button |
| `MetricSelection.OnlyFirstUnderscoreReplaced` | front_end/ride-hud-joyride-setup-main/src/pages/Index.tsx:131 | A second underscore is kept: `a_b_c` is shown as `a b_c` |
| `MetricSelection.InitialDisplayLabels` | front_end/ride-hud-joyride-setup-main/src/pages/Index.tsx:131 | The initial selection is shown as `speed`, `heart rate`, `cadence` |
| `MetricSelection.JoinAppend` | front_end/ride-hud-joyride-setup-main/src/pages/Index.tsx:131 | Joining a non-empty list with one more label gives the old join, the separator and that label |
| `MetricSelection.SelectedLineAppend` | front_end/ride-hud-joyride-setup-main/src/pages/Index.tsx:131 | The Selected line is empty for no metric and the bare label for one; each further metric adds `", "` and its display label at the end |
| `MetricSelection.SelectedLineOfThree` | front_end/ride-hud-joyride-setup-main/src/pages/Index.tsx:131 | The Selected line of three ids is their display labels in selection order, separated by `", "` |
| `MetricSelection.SaveSettings` | front_end/ride-hud-joyride-setup-main/src/pages/Index.tsx:43-50 | With nobody signed in nothing is written. Otherwise the current selection is written to the signed-in user's own document |

## Left out

- Firebase `verifyIdToken` is the parameter `verify`. Signature and expiry checking are cryptography in a foreign library.
- Postgres is modelled as a sequential map update. The SQL text, the connection pool and the `updated_at`/`NOW()` column are left out; the clock is not modelled.
- `HudRoutes.PostReplacesOwnRow` and `HudRoutes.PostThenGetRoundTrip` assume the table gives back exactly what was written. The node-postgres driver's value conversion and the column types of `hud_preferences` are not modelled; the assumption holds if `metrics` is a `text[]` column and `layout` a text column, and the schema is not in the repository.
- A failing query is left out. The route has no try/catch. With Express 4 a query error is an unhandled rejection and no response is sent; with Express 5 the rejection reaches the default error handler, which answers 500. The repository does not pin the Express version.
- Concurrent writers are left out. Per-user last-writer-wins ordering is a database concern, and the model is sequential.
- The POST body is modelled as the own fields of the parsed JSON. With Express 4 and body-parser 1.x, an array body or no body has none of the fields the route reads and behaves as an empty object does, so it gets 400 `Invalid input`. With Express 5, body-parser 2 leaves `req.body` undefined when no body is sent, the destructuring at hud.js:39 throws, and the default error handler answers 500. The repository does not pin the Express version.
- The Express wiring in `hud-backend/index.js` is left out: CORS, the `/api/user/hud` mount, the `{error:'Route not found'}` catch-all and credential loading. `express.json()` runs before the gate (index.js:20-23), so a malformed JSON body gets the parser's 400 whatever the header says; `Request.body` stands only for bodies that parsed.
- The browser side of `toggleFullscreen` is left out, because it is DOM I/O. So is the `fullscreenchange` listener (useHudSettings.ts:105-114, 144-156).
- `localStorage` and `console.warn` are left out, as I/O. The save effect appears only through `HudSettings.SaveThenLoad`, with `stringify`/`parse` as parameters.
- The model assumes an imported or stored object's fields have their declared types. TypeScript does not check them at run time, so `{"layout": 5}` would be spread in as it is. Keys that are not `HudSettings` fields are dropped by `Parsed` rather than carried along.
- An `updateSettings` call whose update has a key explicitly set to `undefined` is left out. The callers never do this, and JSON cannot produce one.
- `HudSettings.ToggleMetric`: only the four declared keys are toggled. In JavaScript, `in` also finds inherited names such as `toString`, and for them the source would add a field.
- `toggleMetric` and `toggleFullscreen` read the rendered `settings` rather than `prev`. Two calls within one render batch are not modelled; in sequence the two readings agree.
- `updateFrequency` is an integer. The settings dialog sets it with `parseInt`.
- `MetricSelection.ToUpper` and `MetricSelection.ButtonLabel` upper-case ASCII letters only. JavaScript's `toUpperCase` also maps other Unicode letters, and can change the length (`ß` becomes `SS`); the offered ids are ASCII.
- `saveSettings` is left out beyond its guard and the document it targets. The Firestore write, the `lastUpdated` timestamp, the `saving` flag and the alerts are I/O and UI.
- The rest of the repository is rendering, simulation or bootstrap, and is not modelled: `useHudData.ts` (random, floating-point and timer simulation), `MetricCard.tsx`, `HudDisplay.tsx`, `HudControls.tsx`, `HudSettingsModal.tsx`, `back_end/src/index.ts`, `hud-background/src/routes/hud.ts`, `useAuth.tsx`, and the markup of the set-up page.

=== FILE: hud_routes.dfy ===
/** The per-user HUD preference service of `hud-backend/routes/hud.js`: a
    bearer-token gate in front of a GET that reads the caller's stored row and
    a POST that validates the body and upserts the row.

    The Postgres table `hud_preferences` is a map from user id to row, and a
    request is handled by a pure function returning the response together with
    the new table. Firebase token verification is the parameter `verify`: it
    yields the verified `uid`, or None where `verifyIdToken` rejects. */
module HudRoutes {
  import opened Wrappers
  import opened Json

  type UserId = string

  /** One row of `hud_preferences` as the handlers see it; `updated_at` is
      set from the database clock and is not modelled. */
  datatype Preference = Preference(metrics: seq<JsonValue>, layout: JsonValue, thresholds: JsonValue)

  /** The table: at most one row per user id. */
  type Store = map<UserId, Preference>

  datatype Verb = Get | Post

  /** An incoming request: its HTTP verb, its `Authorization` header if any,
      and the own fields of the JSON body `express.json` parsed (an absent
      body, or an array body, has none of the fields the route reads). */
  datatype Request = Request(verb: Verb, authorization: Option<string>, body: map<string, JsonValue>)

  /** The JSON a handler sends back. */
  datatype Reply =
    | ErrorReply(message: string)
      /** `res.json(row)` of GET: the selected metrics, layout and thresholds. */
    | ConfigReply(config: Preference)
      /** `{ success: true, config: row }` of POST, the row as RETURNING gives it. */
    | SavedReply(userId: UserId, config: Preference)

  datatype Response = Response(status: int, reply: Reply)

  /** What handling one request produces: the response and the table after it. */
  datatype Outcome = Outcome(response: Response, store: Store)

  const BearerPrefix: string := "Bearer "

  const Unauthorized: Response := Response(401, ErrorReply("Unauthorized"))
  const NoConfigFound: Response := Response(404, ErrorReply("No config found"))
  const InvalidInput: Response := Response(400, ErrorReply("Invalid input"))

  /* ---------------------------------------------------------------------- */
  /* The bearer-token gate                                                   */
  /* ---------------------------------------------------------------------- */

  predicate StartsWith(s: string, prefix: string) {
    |prefix| <= |s| && s[..|prefix|] == prefix
  }

  /** `sep` occurs in `s` starting at index `i`. */
  predicate OccursAt(s: string, sep: string, i: int) {
    0 <= i && i + |sep| <= |s| && s[i..i + |sep|] == sep
  }

  /** Occurrences in `s[1..]` are the occurrences in `s` one index later. */
  lemma OccursAtTail(s: string, sep: string)
    requires |s| > 0
    ensures forall j :: 1 <= j ==> (OccursAt(s, sep, j) <==> OccursAt(s[1..], sep, j - 1))
  {
  }

  /** The text of `s` before the first occurrence of `sep`, or all of `s`
      when `sep` does not occur in it: the first piece `s.split(sep)` yields. */
  function UntilSeparator(s: string, sep: string): (r: string)
    requires |sep| > 0
    ensures |r| <= |s| && r == s[..|r|]
    ensures forall i :: 0 <= i < |r| ==> !OccursAt(s, sep, i)
    ensures |r| < |s| ==> OccursAt(s, sep, |r|)
    decreases |s|
  {
    if |s| < |sep| then s
    else if s[..|sep|] == sep then []
    else
      assert s[0..|sep|] == s[..|sep|];
      OccursAtTail(s, sep);
      [s[0]] + UntilSeparator(s[1..], sep)
  }

  /** The token `authHeader.split('Bearer ')[1]` picks out of a header that
      starts with the prefix: the split's first piece is the empty text before
      the prefix, its second runs from the prefix to the next "Bearer ". */
  function BearerToken(header: string): (token: string)
    requires StartsWith(header, BearerPrefix)
    ensures var rest := header[|BearerPrefix|..];
      && |token| <= |rest| && token == rest[..|token|]
      && (forall i :: 0 <= i < |token| ==> !OccursAt(rest, BearerPrefix, i))
      && (|token| < |rest| ==> OccursAt(rest, BearerPrefix, |token|))
  {
    UntilSeparator(header[|BearerPrefix|..], BearerPrefix)
  }

  /** The middleware: the verified user id, or None when the header is
      missing, lacks the "Bearer " prefix, or carries a token `verify`
      rejects. All three failures are answered alike by `Handle`. */
  function Authenticate(verify: string -> Option<UserId>, authorization: Option<string>): (uid: Option<UserId>)
    ensures authorization.None? ==> uid.None?
    ensures authorization.Some? && !StartsWith(authorization.value, BearerPrefix) ==> uid.None?
    ensures uid.Some? ==> exists token :: verify(token) == uid
  {
    match authorization
    case None => None
    case Some(header) =>
      if !StartsWith(header, BearerPrefix) then None
      else verify(BearerToken(header))
  }

  /* ---------------------------------------------------------------------- */
  /* The two handlers                                                        */
  /* ---------------------------------------------------------------------- */

  /** GET: the caller's row, or 404 when the table has none for them. */
  function Fetch(store: Store, uid: UserId): (response: Response)
    ensures response.status == 200 <==> uid in store
    ensures uid in store ==> response.reply == ConfigReply(store[uid])
    ensures uid !in store ==> response == NoConfigFound
  {
    if uid in store then Response(200, ConfigReply(store[uid])) else NoConfigFound
  }

  /** A body field is truthy: present (not `undefined`) and truthy in the
      JavaScript sense. */
  predicate TruthyField(body: map<string, JsonValue>, key: string) {
    key in body && Truthy(body[key])
  }

  /** The guard `!Array.isArray(metrics) || !layout` lets the body through. */
  predicate ValidBody(body: map<string, JsonValue>) {
    && "metrics" in body && body["metrics"].JArray?
    && TruthyField(body, "layout")
  }

  /** `thresholds || {}`: the body's thresholds when truthy, else `{}`. */
  function ThresholdsOrEmpty(body: map<string, JsonValue>): JsonValue {
    if TruthyField(body, "thresholds") then body["thresholds"] else JObject(map[])
  }

  /** The full row a valid body is stored as. */
  function RowOf(body: map<string, JsonValue>): Preference
    requires ValidBody(body)
  {
    Preference(body["metrics"].items, body["layout"], ThresholdsOrEmpty(body))
  }

  /** POST: validate, then replace the caller's row in full. */
  function Upsert(store: Store, uid: UserId, body: map<string, JsonValue>): (out: Outcome)
    ensures out.response.status == 200 <==> ValidBody(body)
    ensures !ValidBody(body) ==> out == Outcome(InvalidInput, store)
    ensures ValidBody(body) ==>
      && out.store.Keys == store.Keys + {uid}
      && out.store[uid] == RowOf(body)
      && out.response.reply == SavedReply(uid, out.store[uid])
      && (forall k :: k in store && k != uid ==> out.store[k] == store[k])
  {
    if !ValidBody(body) then Outcome(InvalidInput, store)
    else
      var row := RowOf(body);
      Outcome(Response(200, SavedReply(uid, row)), store[uid := row])
  }

  /** The router: the gate first, then the handler for the verb, scoped by
      the verified user id. */
  function Handle(verify: string -> Option<UserId>, store: Store, req: Request): (out: Outcome)
    ensures out.response.status == 401 <==> Authenticate(verify, req.authorization).None?
    ensures out.response.status == 401 ==> out == Outcome(Unauthorized, store)
    ensures req.verb.Get? ==> out.store == store
    ensures out.response.status != 200 ==> out.store == store
  {
    match Authenticate(verify, req.authorization)
    case None => Outcome(Unauthorized, store)
    case Some(uid) =>
      match req.verb
      case Get => Outcome(Fetch(store, uid), store)
      case Post => Upsert(store, uid, req.body)
  }

  /* ---------------------------------------------------------------------- */
  /* Properties                                                              */
  /* ---------------------------------------------------------------------- */

  /** User `k` has a row in both tables or in neither, and the same row
      when they have one. */
  predicate SameRowAt(s: Store, t: Store, k: UserId) {
    (k in s <==> k in t) && (k in s ==> s[k] == t[k])
  }

  /** A token ending at the end of the header comes back unchanged: the
      header "Bearer " + t yields t whenever "Bearer " does not occur in t. */
  lemma BearerTokenOfHeader(token: string)
    requires forall i :: 0 <= i < |token| ==> !OccursAt(token, BearerPrefix, i)
    ensures StartsWith(BearerPrefix + token, BearerPrefix)
    ensures BearerToken(BearerPrefix + token) == token
  {
  }

  /** The gate lets a well-formed header through: "Bearer " + t, where t
      holds no further "Bearer " and verifies as u, authenticates as u. */
  lemma ValidTokenAuthenticates(verify: string -> Option<UserId>, t: string, u: UserId)
    requires forall i :: 0 <= i < |t| ==> !OccursAt(t, BearerPrefix, i)
    requires verify(t) == Some(u)
    ensures Authenticate(verify, Some(BearerPrefix + t)) == Some(u)
  {
    BearerTokenOfHeader(t);
  }

  /** Every prefixed header is judged by its split token: whatever follows
      "Bearer ", up to the next "Bearer ", is the text handed to `verify`,
      and its answer is the gate's. */
  lemma PrefixedHeaderVerifiesItsToken(verify: string -> Option<UserId>, header: string)
    requires StartsWith(header, BearerPrefix)
    ensures Authenticate(verify, Some(header)) == verify(BearerToken(header))
  {
  }

  /** A missing header, or one without the "Bearer " prefix, is rejected with
      401 before the token is looked at: the answer is the same whatever
      `verify` would say, and the table is untouched. */
  lemma MissingOrMalformedHeaderRejected(verify: string -> Option<UserId>, other: string -> Option<UserId>, store: Store, req: Request)
    requires req.authorization.None? || !StartsWith(req.authorization.value, BearerPrefix)
    ensures Handle(verify, store, req) == Outcome(Unauthorized, store)
    ensures Handle(verify, store, req) == Handle(other, store, req)
  {
  }

  /** A header with the prefix whose token `verify` rejects draws exactly the
      401 body a missing header does, and the table is neither read (the
      answer is the same for any table) nor written. */
  lemma InvalidTokenRejectedAlike(verify: string -> Option<UserId>, store: Store, other: Store, req: Request)
    requires req.authorization.Some? && StartsWith(req.authorization.value, BearerPrefix)
    requires verify(BearerToken(req.authorization.value)).None?
    ensures Handle(verify, store, req) == Outcome(Unauthorized, store)
    ensures Handle(verify, store, req).response == Handle(verify, other, req.(authorization := None)).response
    ensures Handle(verify, store, req).response == Handle(verify, other, req).response
  {
  }

  /** Every read and write is keyed by the verified user id alone: the answer
      depends only on the table's entry for that id, and no other entry
      changes, whatever the body says. */
  lemma KeyedByVerifiedUser(verify: string -> Option<UserId>, store: Store, other: Store, req: Request, uid: UserId)
    requires Authenticate(verify, req.authorization) == Some(uid)
    requires SameRowAt(store, other, uid)
    ensures Handle(verify, store, req).response == Handle(verify, other, req).response
    ensures forall k :: k != uid ==> SameRowAt(Handle(verify, store, req).store, store, k)
  {
  }

  /** GET answers 404 "No config found" exactly when the caller has no row,
      and otherwise the row's metrics, layout and thresholds; it never writes. */
  lemma GetReturnsOwnRow(verify: string -> Option<UserId>, store: Store, req: Request, uid: UserId)
    requires req.verb.Get? && Authenticate(verify, req.authorization) == Some(uid)
    ensures Handle(verify, store, req).store == store
    ensures Handle(verify, store, req).response == NoConfigFound <==> uid !in store
    ensures uid in store ==> Handle(verify, store, req).response == Response(200, ConfigReply(store[uid]))
  {
  }

  /** POST answers 400 "Invalid input", leaving the table as it was, exactly
      when `metrics` is not an array or `layout` is missing, null, false, 0
      or the empty string. */
  lemma PostRejectsInvalidBody(verify: string -> Option<UserId>, store: Store, req: Request, uid: UserId)
    requires req.verb.Post? && Authenticate(verify, req.authorization) == Some(uid)
    ensures Handle(verify, store, req).response == InvalidInput
        <==> (!("metrics" in req.body && req.body["metrics"].JArray?)
              || "layout" !in req.body
              || req.body["layout"] in {JNull, JBool(false), JNumber(0.0), JString("")})
    ensures Handle(verify, store, req).response == InvalidInput ==> Handle(verify, store, req).store == store
  {
  }

  /** A valid POST replaces the caller's row in full with the body's metrics,
      layout and thresholds (`{}` when those are missing or falsy), leaves
      every other user's row alone, and answers with the stored row. */
  lemma PostReplacesOwnRow(verify: string -> Option<UserId>, store: Store, req: Request, uid: UserId)
    requires req.verb.Post? && Authenticate(verify, req.authorization) == Some(uid)
    requires ValidBody(req.body)
    ensures var out := Handle(verify, store, req);
      && uid in out.store
      && out.store[uid].metrics == req.body["metrics"].items
      && out.store[uid].layout == req.body["layout"]
      && out.store[uid].thresholds == (if "thresholds" in req.body && Truthy(req.body["thresholds"]) then req.body["thresholds"] else JObject(map[]))
      && out.store.Keys == store.Keys + {uid}
      && (forall k :: k in store && k != uid ==> out.store[k] == store[k])
      && out.response == Response(200, SavedReply(uid, out.store[uid]))
  {
  }

  /** Round trip: after a successful POST by a user, a GET by the same user,
      with whatever token `verify` maps to them, returns the triple the POST
      sent, with `{}` for omitted thresholds. */
  lemma PostThenGetRoundTrip(verify: string -> Option<UserId>, store: Store, post: Request, get: Request, uid: UserId)
    requires post.verb.Post? && Authenticate(verify, post.authorization) == Some(uid)
    requires get.verb.Get? && Authenticate(verify, get.authorization) == Some(uid)
    requires Handle(verify, store, post).response.status == 200
    ensures var got := Handle(verify, Handle(verify, store, post).store, get).response;
      && got.status == 200 && got.reply.ConfigReply?
      && got.reply.config.metrics == post.body["metrics"].items
      && got.reply.config.layout == post.body["layout"]
      && got.reply.config.thresholds ==
           (if "thresholds" in post.body && Truthy(post.body["thresholds"]) then post.body["thresholds"] else JObject(map[]))
  {
  }

  /** Repeating a POST is harmless: the second leaves the same table and
      gives the same answer as the first. */
  lemma PostIdempotent(verify: string -> Option<UserId>, store: Store, req: Request)
    requires req.verb.Post?
    ensures var once := Handle(verify, store, req);
      var twice := Handle(verify, once.store, req);
      twice.store == once.store && twice.response == once.response
  {
  }

  /** Isolation: any request by user A leaves what a GET by a different user
      B observes unchanged. */
  lemma OtherUsersIsolated(verify: string -> Option<UserId>, store: Store, req: Request, get: Request, a: UserId, b: UserId)
    requires Authenticate(verify, req.authorization) == Some(a)
    requires get.verb.Get? && Authenticate(verify, get.authorization) == Some(b)
    requires a != b
    ensures Handle(verify, Handle(verify, store, req).store, get).response == Handle(verify, store, get).response
  {
  }
}

=== FILE: hud_settings.dfy ===
/** The HUD settings state of the `useHudSettings` hook
    (`front_end/back_end/both/src/hooks/useHudSettings.ts`): a fixed record,
    its defaults, and the pure transitions the hook offers over it.

    A `Partial<HudSettings>` is an `Update` whose absent fields are None; the
    object spread `{ ...base, ...update }` is `UpdateSettings`. `JSON.parse`
    and `JSON.stringify` are parameters, and what `JSON.parse` yields is seen
    only as far as the hook looks at it (`Parsed`). */
module HudSettings {
  import opened Wrappers

  datatype Layout = Grid2x2 | Horizontal | Vertical | Compact
  datatype SpeedUnit = KilometresPerHour | MilesPerHour | MetresPerSecond
  datatype DistanceUnit = Kilometres | Miles
  datatype TemperatureUnit = Celsius | Fahrenheit
  datatype Theme = Dark | Light | Auto

  datatype EnabledMetrics = EnabledMetrics(speed: bool, heartRate: bool, cadence: bool, power: bool)
  datatype Units = Units(speed: SpeedUnit, distance: DistanceUnit, temperature: TemperatureUnit)

  /** `HudSettings`; `activeMetric` is None for `null`, and `updateFrequency`
      is in milliseconds. */
  datatype Settings = Settings(
    layout: Layout,
    enabledMetrics: EnabledMetrics,
    units: Units,
    updateFrequency: int,
    simulateData: bool,
    activeMetric: Option<string>,
    isFullscreen: bool,
    theme: Theme,
    glassEffect: bool)

  /** `Partial<HudSettings>`: each field is None when the object lacks it. */
  datatype Update = Update(
    layout: Option<Layout>,
    enabledMetrics: Option<EnabledMetrics>,
    units: Option<Units>,
    updateFrequency: Option<int>,
    simulateData: Option<bool>,
    activeMetric: Option<Option<string>>,
    isFullscreen: Option<bool>,
    theme: Option<Theme>,
    glassEffect: Option<bool>)

  const NoUpdate: Update := Update(None, None, None, None, None, None, None, None, None)

  /** `defaultSettings`. */
  const Defaults: Settings := Settings(
    Grid2x2,
    EnabledMetrics(true, true, true, true),
    Units(KilometresPerHour, Kilometres, Celsius),
    250,
    true,
    None,
    false,
    Dark,
    true)

  /* ---------------------------------------------------------------------- */
  /* Top-level fields, to say which ones a transition touches                */
  /* ---------------------------------------------------------------------- */

  datatype Field =
    | LayoutField | EnabledMetricsField | UnitsField | UpdateFrequencyField | SimulateDataField
    | ActiveMetricField | IsFullscreenField | ThemeField | GlassEffectField

  /** `s` and `t` hold the same value in field `f`. */
  predicate SameAt(s: Settings, t: Settings, f: Field) {
    match f
    case LayoutField => s.layout == t.layout
    case EnabledMetricsField => s.enabledMetrics == t.enabledMetrics
    case UnitsField => s.units == t.units
    case UpdateFrequencyField => s.updateFrequency == t.updateFrequency
    case SimulateDataField => s.simulateData == t.simulateData
    case ActiveMetricField => s.activeMetric == t.activeMetric
    case IsFullscreenField => s.isFullscreen == t.isFullscreen
    case ThemeField => s.theme == t.theme
    case GlassEffectField => s.glassEffect == t.glassEffect
  }

  /** The update object has field `f`. */
  predicate Has(u: Update, f: Field) {
    match f
    case LayoutField => u.layout.Some?
    case EnabledMetricsField => u.enabledMetrics.Some?
    case UnitsField => u.units.Some?
    case UpdateFrequencyField => u.updateFrequency.Some?
    case SimulateDataField => u.simulateData.Some?
    case ActiveMetricField => u.activeMetric.Some?
    case IsFullscreenField => u.isFullscreen.Some?
    case ThemeField => u.theme.Some?
    case GlassEffectField => u.glassEffect.Some?
  }

  /** Where `u` has field `f`, `t` holds the value `u` gives it. */
  predicate Carries(u: Update, t: Settings, f: Field) {
    match f
    case LayoutField => u.layout.Some? ==> t.layout == u.layout.value
    case EnabledMetricsField => u.enabledMetrics.Some? ==> t.enabledMetrics == u.enabledMetrics.value
    case UnitsField => u.units.Some? ==> t.units == u.units.value
    case UpdateFrequencyField => u.updateFrequency.Some? ==> t.updateFrequency == u.updateFrequency.value
    case SimulateDataField => u.simulateData.Some? ==> t.simulateData == u.simulateData.value
    case ActiveMetricField => u.activeMetric.Some? ==> t.activeMetric == u.activeMetric.value
    case IsFullscreenField => u.isFullscreen.Some? ==> t.isFullscreen == u.isFullscreen.value
    case ThemeField => u.theme.Some? ==> t.theme == u.theme.value
    case GlassEffectField => u.glassEffect.Some? ==> t.glassEffect == u.glassEffect.value
  }

  /** Settings that agree on every top-level field are equal. */
  lemma SameEverywhere(s: Settings, t: Settings)
    requires forall f :: SameAt(s, t, f)
    ensures s == t
  {
    assert SameAt(s, t, LayoutField) && SameAt(s, t, EnabledMetricsField) && SameAt(s, t, UnitsField);
    assert SameAt(s, t, UpdateFrequencyField) && SameAt(s, t, SimulateDataField);
    assert SameAt(s, t, ActiveMetricField) && SameAt(s, t, IsFullscreenField);
    assert SameAt(s, t, ThemeField) && SameAt(s, t, GlassEffectField);
  }

  /** The update that has every field, each with the value `s` holds: the
      object `JSON.stringify(s)` describes. */
  function Everything(s: Settings): (u: Update)
    ensures forall f :: Has(u, f) && Carries(u, s, f)
  {
    Update(Some(s.layout), Some(s.enabledMetrics), Some(s.units), Some(s.updateFrequency),
           Some(s.simulateData), Some(s.activeMetric), Some(s.isFullscreen), Some(s.theme),
           Some(s.glassEffect))
  }

  /* ---------------------------------------------------------------------- */
  /* Transitions                                                             */
  /* ---------------------------------------------------------------------- */

  /** `updateSettings(updates)`: the shallow spread `{ ...s, ...u }`. The
      fields `u` has replace those of `s` whole (a nested `enabledMetrics`
      or `units` is not merged), and no other field changes. */
  function UpdateSettings(s: Settings, u: Update): (r: Settings)
    ensures forall f :: !Has(u, f) ==> SameAt(s, r, f)
    ensures forall f :: Carries(u, r, f)
  {
    Settings(
      u.layout.GetOr(s.layout),
      u.enabledMetrics.GetOr(s.enabledMetrics),
      u.units.GetOr(s.units),
      u.updateFrequency.GetOr(s.updateFrequency),
      u.simulateData.GetOr(s.simulateData),
      u.activeMetric.GetOr(s.activeMetric),
      u.isFullscreen.GetOr(s.isFullscreen),
      u.theme.GetOr(s.theme),
      u.glassEffect.GetOr(s.glassEffect))
  }

  /** The two properties of `UpdateSettings` determine its result: any
      settings that take every field `u` has and keep every other field of
      `s` are the spread. */
  lemma UpdateSettingsUnique(s: Settings, u: Update, r: Settings)
    requires forall f :: !Has(u, f) ==> SameAt(s, r, f)
    requires forall f :: Carries(u, r, f)
    ensures r == UpdateSettings(s, u)
  {
    var spread := UpdateSettings(s, u);
    forall f
      ensures SameAt(r, spread, f)
    {
      if Has(u, f) {
        assert Carries(u, r, f) && Carries(u, spread, f);
      } else {
        assert SameAt(s, r, f) && SameAt(s, spread, f);
      }
    }
    SameEverywhere(r, spread);
  }

  /** Spreading the update that has every field of `s` gives `s`, whatever
      the base. */
  lemma UpdateWithEverything(base: Settings, s: Settings)
    ensures UpdateSettings(base, Everything(s)) == s
  {
  }

  /** `updateLayout(layout)`: sets the layout and changes nothing else. */
  function UpdateLayout(s: Settings, layout: Layout): (r: Settings)
    ensures r.layout == layout
    ensures forall f :: f != LayoutField ==> SameAt(s, r, f)
  {
    UpdateSettings(s, NoUpdate.(layout := Some(layout)))
  }

  /** The keys of `enabledMetrics`, the only ids `toggleMetric` acts on. */
  datatype MetricKey = SpeedKey | HeartRateKey | CadenceKey | PowerKey

  function KeyName(k: MetricKey): string {
    match k
    case SpeedKey => "speed"
    case HeartRateKey => "heartRate"
    case CadenceKey => "cadence"
    case PowerKey => "power"
  }

  /** `metricId in settings.enabledMetrics`, as the key it names. */
  function KeyOf(id: string): (k: Option<MetricKey>)
  {
    if id == "speed" then Some(SpeedKey)
    else if id == "heartRate" then Some(HeartRateKey)
    else if id == "cadence" then Some(CadenceKey)
    else if id == "power" then Some(PowerKey)
    else None
  }

  /** Key names and ids correspond one to one. */
  lemma KeyOfName(id: string, k: MetricKey)
    ensures KeyOf(id) == Some(k) <==> id == KeyName(k)
  {
  }

  function Flag(e: EnabledMetrics, k: MetricKey): bool {
    match k
    case SpeedKey => e.speed
    case HeartRateKey => e.heartRate
    case CadenceKey => e.cadence
    case PowerKey => e.power
  }

  /** `{ ...e, [k]: b }`. */
  function WithFlag(e: EnabledMetrics, k: MetricKey, b: bool): (r: EnabledMetrics)
    ensures Flag(r, k) == b
    ensures forall j :: j != k ==> Flag(r, j) == Flag(e, j)
  {
    match k
    case SpeedKey => e.(speed := b)
    case HeartRateKey => e.(heartRate := b)
    case CadenceKey => e.(cadence := b)
    case PowerKey => e.(power := b)
  }

  /** `toggleMetric(metricId)`: for one of the four keys, negate that flag
      and make the metric active, or clear `activeMetric` if it already was;
      any other id changes nothing. */
  function ToggleMetric(s: Settings, id: string): (r: Settings)
    ensures KeyOf(id).None? ==> r == s
    ensures KeyOf(id).Some? ==>
      var k := KeyOf(id).value;
      && Flag(r.enabledMetrics, k) == !Flag(s.enabledMetrics, k)
      && (forall j :: j != k ==> Flag(r.enabledMetrics, j) == Flag(s.enabledMetrics, j))
      && (s.activeMetric == Some(id) ==> r.activeMetric.None?)
      && (s.activeMetric != Some(id) ==> r.activeMetric == Some(id))
      && (forall f :: f != EnabledMetricsField && f != ActiveMetricField ==> SameAt(s, r, f))
  {
    match KeyOf(id)
    case None => s
    case Some(k) =>
      var e := s.enabledMetrics;
      UpdateSettings(s, NoUpdate.(
        enabledMetrics := Some(WithFlag(e, k, !Flag(e, k))),
        activeMetric := Some(if s.activeMetric == Some(id) then None else Some(id))))
  }

  /** Toggling the same metric twice restores `enabledMetrics` and every
      other field but `activeMetric`, which ends as `id` if it was `id` and
      as `null` otherwise. */
  lemma ToggleMetricTwice(s: Settings, id: string)
    requires KeyOf(id).Some?
    ensures ToggleMetric(ToggleMetric(s, id), id).enabledMetrics == s.enabledMetrics
    ensures ToggleMetric(ToggleMetric(s, id), id)
         == s.(activeMetric := if s.activeMetric == Some(id) then Some(id) else None)
  {
  }

  /** The state half of `toggleFullscreen`: flip `isFullscreen`, nothing else. */
  function ToggleFullscreen(s: Settings): (r: Settings)
    ensures r.isFullscreen == !s.isFullscreen
    ensures forall f :: SameAt(s, r, f) <==> f != IsFullscreenField
  {
    UpdateSettings(s, NoUpdate.(isFullscreen := Some(!s.isFullscreen)))
  }

  /** Flipping fullscreen twice is no change at all. */
  lemma ToggleFullscreenTwice(s: Settings)
    ensures ToggleFullscreen(ToggleFullscreen(s)) == s
  {
  }

  /** `resetSettings`: back to the defaults, whatever the current settings:
      grid-2x2 layout, all four metrics on, km/h, km and Celsius, a 250 ms
      update frequency, simulated data, no active metric, not fullscreen, the
      dark theme and the glass effect. */
  function ResetSettings(s: Settings): (r: Settings)
    ensures r.layout == Grid2x2
    ensures r.enabledMetrics == EnabledMetrics(true, true, true, true)
    ensures r.units == Units(KilometresPerHour, Kilometres, Celsius)
    ensures r.updateFrequency == 250
    ensures r.simulateData && r.activeMetric.None? && !r.isFullscreen
    ensures r.theme == Dark && r.glassEffect
  {
    Defaults
  }

  /* ---------------------------------------------------------------------- */
  /* Export, import and the initial load                                     */
  /* ---------------------------------------------------------------------- */

  /** What `JSON.parse` yields, as the hook sees it: an object (`typeof` is
      "object" and it is not null), given by the `HudSettings` fields it has,
      or any other value. An array is an object with no such field. */
  datatype Parsed = ObjectValue(fields: Update) | NotObject

  datatype ImportResult = ImportResult(accepted: bool, settings: Settings)

  /** `exportSettings`: the settings as JSON text. */
  function ExportSettings(s: Settings, stringify: Settings -> string): string {
    stringify(s)
  }

  /** `importSettings(settingsJson)`: when the text parses to an object,
      accept it and take the defaults overridden by its fields; otherwise
      (a parse error, `null` or a non-object) refuse and keep the settings. */
  function ImportSettings(s: Settings, text: string, parse: string -> Option<Parsed>): (r: ImportResult)
    ensures r.accepted <==> parse(text).Some? && parse(text).value.ObjectValue?
    ensures !r.accepted ==> r.settings == s
    ensures r.accepted ==>
      var u := parse(text).value.fields;
      && (forall f :: !Has(u, f) ==> SameAt(Defaults, r.settings, f))
      && (forall f :: Carries(u, r.settings, f))
  {
    match parse(text)
    case Some(ObjectValue(u)) => ImportResult(true, UpdateSettings(Defaults, u))
    case _ => ImportResult(false, s)
  }

  /** An accepted import does not depend on the settings it replaces: a field
      the imported object lacks takes its default, not its current value. */
  lemma ImportForgetsCurrent(s: Settings, t: Settings, text: string, parse: string -> Option<Parsed>)
    requires ImportSettings(s, text, parse).accepted
    ensures ImportSettings(t, text, parse) == ImportSettings(s, text, parse)
  {
  }

  /** The initial state: a stored, non-empty text is parsed and its object
      spread over the defaults; a missing or empty entry, a parse error or a
      non-object value gives the defaults. */
  function LoadSettings(stored: Option<string>, parse: string -> Option<Parsed>): (r: Settings)
    ensures stored.None? || stored == Some("") ==> r == Defaults
  {
    match stored
    case None => Defaults
    case Some(text) =>
      if text == "" then Defaults
      else
        match parse(text)
        case Some(ObjectValue(u)) => UpdateSettings(Defaults, u)
        case _ => Defaults
  }

  /** Loading agrees with importing: the loaded settings are what an import
      of the stored text would produce, or the defaults where the import
      would be refused. */
  lemma LoadIsImportOverDefaults(text: string, current: Settings, parse: string -> Option<Parsed>)
    requires text != ""
    ensures var imported := ImportSettings(current, text, parse);
      LoadSettings(Some(text), parse) == if imported.accepted then imported.settings else Defaults
  {
  }

  /** Export then import is the identity, given a `JSON.parse` that reads
      back what `JSON.stringify` wrote. */
  lemma ExportImportRoundTrip(s: Settings, current: Settings, stringify: Settings -> string, parse: string -> Option<Parsed>)
    requires parse(stringify(s)) == Some(ObjectValue(Everything(s)))
    ensures ImportSettings(current, ExportSettings(s, stringify), parse) == ImportResult(true, s)
  {
  }

  /** What the save effect writes after every change is what the next load
      restores, given the same faithful JSON pair. */
  lemma SaveThenLoad(s: Settings, stringify: Settings -> string, parse: string -> Option<Parsed>)
    requires stringify(s) != ""
    requires parse(stringify(s)) == Some(ObjectValue(Everything(s)))
    ensures LoadSettings(Some(stringify(s)), parse) == s
  {
  }
}

=== FILE: json.dfy ===
/** The JSON values a request body can carry, and the JavaScript notion of
    truthiness the HUD route applies to them. */
module Json {

  /** A parsed JSON value. Numbers are kept as reals; NaN and the infinities
      cannot come out of JSON text, so they have no place here. */
  datatype JsonValue =
    | JNull
    | JBool(b: bool)
    | JNumber(n: real)
    | JString(s: string)
    | JArray(items: seq<JsonValue>)
    | JObject(fields: map<string, JsonValue>)

  /** JavaScript truthiness of a JSON value: `null`, `false`, `0` and `""`
      are falsy, every other value (an empty array or object included) is
      truthy. */
  predicate Truthy(v: JsonValue): (b: bool)
    ensures !b <==> (v == JNull || v == JBool(false) || v == JNumber(0.0) || v == JString(""))
  {
    match v
    case JNull => false
    case JBool(b) => b
    case JNumber(n) => n != 0.0
    case JString(s) => s != ""
    case JArray(_) => true
    case JObject(_) => true
  }
}

=== FILE: metric_selection.dfy ===
/** The metric picker of the set-up page
    (`front_end/ride-hud-joyride-setup-main/src/pages/Index.tsx`): a list of
    at most three metric ids that the buttons toggle, the labels the page
    shows for them, and the signed-in guard in front of saving. */
module MetricSelection {
  import opened Wrappers

  type MetricId = string

  /** No more than this many metrics can be selected. */
  const MaxSelected: nat := 3

  /** The selection the page starts with. */
  const InitialSelection: seq<MetricId> := ["speed", "heart_rate", "cadence"]

  /** The ids the page offers a button for, in button order. */
  const OfferedMetrics: seq<MetricId> := ["speed", "heart_rate", "cadence", "power", "distance", "time"]

  /* ---------------------------------------------------------------------- */
  /* The toggle                                                              */
  /* ---------------------------------------------------------------------- */

  /** No id occurs twice. */
  predicate Distinct(s: seq<MetricId>) {
    forall i, j :: 0 <= i < j < |s| ==> s[i] != s[j]
  }

  /** The selection invariant the picker keeps. */
  predicate WellFormed(sel: seq<MetricId>) {
    |sel| <= MaxSelected && Distinct(sel)
  }

  /** `a` is `b` with some elements dropped, the rest in their order. */
  predicate IsSubsequence(a: seq<MetricId>, b: seq<MetricId>)
    decreases |b|
  {
    if |a| == 0 then true
    else if |b| == 0 then false
    else (a[0] == b[0] && IsSubsequence(a[1..], b[1..])) || IsSubsequence(a, b[1..])
  }

  /** `sel.filter(m => m !== metric)`: every occurrence of `metric` removed,
      every other id kept as often as it was and in its order. */
  function Without(sel: seq<MetricId>, metric: MetricId): (r: seq<MetricId>)
    ensures metric !in r
    ensures forall x :: x != metric ==> multiset(r)[x] == multiset(sel)[x]
    ensures forall x :: x in r ==> x in sel
    ensures IsSubsequence(r, sel)
    ensures |r| <= |sel|
  {
    if |sel| == 0 then []
    else
      assert sel == [sel[0]] + sel[1..];
      var rest := Without(sel[1..], metric);
      if sel[0] == metric then
        SkipHead(rest, sel);
        rest
      else
        [sel[0]] + rest
  }

  /** A subsequence of the tail is a subsequence of the whole. */
  lemma SkipHead(a: seq<MetricId>, b: seq<MetricId>)
    requires |b| > 0 && IsSubsequence(a, b[1..])
    ensures IsSubsequence(a, b)
  {
  }

  /** The button for `metric` is disabled: it is not selected and the
      selection is full. */
  predicate Disabled(sel: seq<MetricId>, metric: MetricId) {
    metric !in sel && |sel| >= MaxSelected
  }

  /** The button's click: deselect a selected metric, append an unselected
      one while there is room, otherwise leave the selection as it is. */
  function Toggle(sel: seq<MetricId>, metric: MetricId): (r: seq<MetricId>)
    ensures metric in sel ==> metric !in r && IsSubsequence(r, sel)
    ensures metric in sel ==> forall x :: x != metric ==> multiset(r)[x] == multiset(sel)[x]
    ensures metric !in sel && |sel| < MaxSelected ==> r == sel + [metric]
    ensures Disabled(sel, metric) ==> r == sel
  {
    if metric in sel then Without(sel, metric)
    else if |sel| < MaxSelected then sel + [metric]
    else sel
  }

  /** A button is disabled exactly when its id is unselected and pressing
      it would change nothing. */
  lemma DisabledExactlyWhenNoOp(sel: seq<MetricId>, metric: MetricId)
    ensures Disabled(sel, metric) <==> (metric !in sel && Toggle(sel, metric) == sel)
  {
  }

  /** Removing an id from a list without duplicates leaves a list without
      duplicates. */
  lemma {:induction false} WithoutKeepsDistinct(sel: seq<MetricId>, metric: MetricId)
    requires Distinct(sel)
    ensures Distinct(Without(sel, metric))
  {
    if |sel| > 0 {
      var rest := Without(sel[1..], metric);
      assert Distinct(sel[1..]);
      WithoutKeepsDistinct(sel[1..], metric);
      if sel[0] != metric {
        assert sel[0] !in sel[1..];
        assert sel[0] !in rest;
        var r := [sel[0]] + rest;
        forall i, j | 0 <= i < j < |r|
          ensures r[i] != r[j]
        {
          if i == 0 {
            assert r[j] == rest[j - 1];
          } else {
            assert r[i] == rest[i - 1] && r[j] == rest[j - 1];
          }
        }
      }
    }
  }

  /** Whatever button is pressed, a selection of at most three distinct ids
      stays one. */
  lemma ToggleKeepsWellFormed(sel: seq<MetricId>, metric: MetricId)
    requires WellFormed(sel)
    ensures WellFormed(Toggle(sel, metric))
  {
    if metric in sel {
      WithoutKeepsDistinct(sel, metric);
    } else if |sel| < MaxSelected {
      var r := sel + [metric];
      forall i, j | 0 <= i < j < |r|
        ensures r[i] != r[j]
      {
        if j == |sel| {
          assert r[i] == sel[i];
        }
      }
    }
  }

  /** Removing an id from a list with it appended once at the end. */
  lemma {:induction false} WithoutAppended(sel: seq<MetricId>, metric: MetricId)
    requires metric !in sel
    ensures Without(sel + [metric], metric) == sel
  {
    if |sel| == 0 {
      assert sel + [metric] == [metric];
    } else {
      assert (sel + [metric])[1..] == sel[1..] + [metric];
      assert metric !in sel[1..];
      WithoutAppended(sel[1..], metric);
      assert sel == [sel[0]] + sel[1..];
    }
  }

  /** Selecting an unselected metric while there is room, then pressing its
      button again, gives back the original selection. */
  lemma ToggleTwiceRestores(sel: seq<MetricId>, metric: MetricId)
    requires metric !in sel && |sel| < MaxSelected
    ensures Toggle(Toggle(sel, metric), metric) == sel
  {
    assert metric in sel + [metric];
    WithoutAppended(sel, metric);
  }

  /** The page starts from a valid selection of ids it offers. */
  lemma InitialSelectionWellFormed()
    ensures WellFormed(InitialSelection)
    ensures forall m :: m in InitialSelection ==> m in OfferedMetrics
    ensures Distinct(OfferedMetrics) && |OfferedMetrics| == 6
  {
  }

  /* ---------------------------------------------------------------------- */
  /* Labels                                                                  */
  /* ---------------------------------------------------------------------- */

  /** The index of the first `c` in `s`, or `|s|` when there is none. */
  function IndexOf(s: string, c: char): (k: nat)
    ensures k <= |s|
    ensures c !in s[..k]
    ensures k < |s| ==> s[k] == c
  {
    if |s| == 0 then 0
    else if s[0] == c then 0
    else
      var k := 1 + IndexOf(s[1..], c);
      assert s[..k] == [s[0]] + s[1..][..k - 1];
      k
  }

  /** `s.replace(from, to)` with a one-character pattern: only the first
      occurrence of `from` is replaced, and a string without one comes back
      as it was. */
  function ReplaceFirst(s: string, from: char, to: char): (r: string)
    ensures |r| == |s|
    ensures from !in s ==> r == s
    ensures IndexOf(s, from) < |s| ==> r[IndexOf(s, from)] == to
    ensures forall i :: 0 <= i < |s| && i != IndexOf(s, from) ==> r[i] == s[i]
  {
    var k := IndexOf(s, from);
    if k == |s| then s else s[..k] + [to] + s[k + 1..]
  }

  /** An ASCII lower-case letter, a to z. */
  predicate IsLower(c: char) {
    'a' <= c <= 'z'
  }

  /** `toUpperCase` on one character: ASCII letters a to z map to A to Z. */
  function UpperChar(c: char): char {
    if 'a' <= c <= 'z' then (c as int - 32) as char else c
  }

  /** `up` is `c` or, when `c` is a lower-case letter, its capital. */
  predicate CaseMatch(up: char, c: char) {
    up == c || (IsLower(c) && up as int == c as int - 32)
  }

  /** `s.toUpperCase()` on ASCII: every lower-case letter becomes its
      capital, every other character is kept, and no lower-case letter is
      left. */
  function ToUpper(s: string): (r: string)
    ensures |r| == |s|
    ensures forall i :: 0 <= i < |s| ==> !IsLower(r[i])
    ensures forall i :: 0 <= i < |s| && !IsLower(s[i]) ==> r[i] == s[i]
    ensures forall i :: 0 <= i < |s| && IsLower(s[i]) ==> r[i] as int == s[i] as int - 32
  {
    seq(|s|, i requires 0 <= i < |s| => UpperChar(s[i]))
  }

  /** The text of the "Selected:" line for one id: its first underscore
      becomes a space. */
  function DisplayLabel(metric: MetricId): string {
    ReplaceFirst(metric, '_', ' ')
  }

  /** A button's caption: as long as the id, the first underscore shown as
      a space, every other character the id's own up to ASCII case, and no
      lower-case letter. */
  function ButtonLabel(metric: MetricId): (caption: string)
    ensures |caption| == |metric|
    ensures forall i :: 0 <= i < |metric| ==> !IsLower(caption[i])
    ensures forall i :: 0 <= i < |metric| ==> CaseMatch(caption[i], DisplayLabel(metric)[i])
    ensures IndexOf(metric, '_') < |metric| ==> caption[IndexOf(metric, '_')] == ' '
    ensures forall i :: 0 <= i < |metric| && i != IndexOf(metric, '_') ==> CaseMatch(caption[i], metric[i])
  {
    ToUpper(DisplayLabel(metric))
  }

  /** `labels.join(", ")`. */
  function Join(labels: seq<string>, sep: string): string {
    if |labels| == 0 then ""
    else if |labels| == 1 then labels[0]
    else labels[0] + sep + Join(labels[1..], sep)
  }

  /** `sel.map(m => m.replace("_", " "))`. */
  function DisplayLabels(sel: seq<MetricId>): (labels: seq<string>)
    ensures |labels| == |sel|
    ensures forall i :: 0 <= i < |sel| ==> labels[i] == DisplayLabel(sel[i])
  {
    seq(|sel|, i requires 0 <= i < |sel| => DisplayLabel(sel[i]))
  }

  /** The "Selected:" line: the display labels joined by commas. */
  function SelectedLine(sel: seq<MetricId>): string {
    Join(DisplayLabels(sel), ", ")
  }

  /** Joining one more label appends the separator and that label. */
  lemma {:induction false} JoinAppend(labels: seq<string>, x: string, sep: string)
    requires |labels| > 0
    ensures Join(labels + [x], sep) == Join(labels, sep) + sep + x
  {
    if |labels| == 1 {
      assert (labels + [x])[1..] == [x];
    } else {
      assert (labels + [x])[1..] == labels[1..] + [x];
      JoinAppend(labels[1..], x, sep);
    }
  }

  /** The "Selected:" line grows one label at a time: empty for no metric,
      the bare label for one, and each further metric adds ", " and its
      label at the end. */
  lemma SelectedLineAppend(sel: seq<MetricId>, metric: MetricId)
    ensures SelectedLine([]) == ""
    ensures SelectedLine([metric]) == DisplayLabel(metric)
    ensures |sel| > 0 ==> SelectedLine(sel + [metric]) == SelectedLine(sel) + ", " + DisplayLabel(metric)
  {
    assert DisplayLabels([metric]) == [DisplayLabel(metric)];
    if |sel| > 0 {
      assert DisplayLabels(sel + [metric]) == DisplayLabels(sel) + [DisplayLabel(metric)];
      JoinAppend(DisplayLabels(sel), DisplayLabel(metric), ", ");
    }
  }

  /** The one offered id with an underscore: only the button caption is
      upper-cased. */
  lemma HeartRateLabels()
    ensures DisplayLabel("heart_rate") == "heart rate"
    ensures ButtonLabel("heart_rate") == "HEART RATE"
  {
    assert IndexOf("heart_rate", '_') == 5;
    assert "heart_rate"[..5] == "heart";
    assert "heart_rate"[6..] == "rate";
  }

  /** A second underscore is kept: "a_b_c" is shown as "a b_c". */
  lemma OnlyFirstUnderscoreReplaced()
    ensures DisplayLabel("a_b_c") == "a b_c"
  {
  }

  /** The labels of the initial selection: only "heart_rate" changes. */
  lemma InitialDisplayLabels()
    ensures DisplayLabels(InitialSelection) == ["speed", "heart rate", "cadence"]
  {
    HeartRateLabels();
    assert '_' !in "speed" && '_' !in "cadence";
  }

  /** The "Selected:" line of a full selection lists the three display
      labels in selection order, separated by ", ". */
  lemma SelectedLineOfThree(sel: seq<MetricId>)
    requires |sel| == 3
    ensures SelectedLine(sel) == DisplayLabel(sel[0]) + ", " + DisplayLabel(sel[1]) + ", " + DisplayLabel(sel[2])
  {
    var labels := DisplayLabels(sel);
    assert |labels[1..]| == 2 && labels[1..][0] == labels[1];
    assert labels[1..][1..] == [labels[2]];
    assert Join(labels[1..][1..], ", ") == labels[2];
    assert Join(labels[1..], ", ") == labels[1] + ", " + labels[2];
    assert Join(labels, ", ") == labels[0] + ", " + (labels[1] + ", " + labels[2]);
  }

  /* ---------------------------------------------------------------------- */
  /* Saving                                                                  */
  /* ---------------------------------------------------------------------- */

  /** The Firestore document `saveSettings` writes: `userSettings/<uid>`
      with the selection as `hudCustomization`. */
  datatype SavedDocument = SavedDocument(userId: string, metrics: seq<MetricId>)

  /** `saveSettings`: with nobody signed in nothing is written; otherwise
      the current selection goes to the signed-in user's own document. */
  function SaveSettings(user: Option<string>, sel: seq<MetricId>): (write: Option<SavedDocument>)
    ensures write.None? <==> user.None?
    ensures write.Some? ==> write.value.userId == user.value && write.value.metrics == sel
  {
    match user
    case None => None
    case Some(uid) => Some(SavedDocument(uid, sel))
  }
}

=== FILE: wrappers.dfy ===
/** Option, shared by the HUD modules. */
module Wrappers {

  /** A value that may be absent: a JavaScript `undefined` field, a `null`
      active metric, a failed `JSON.parse`, a rejected token. */
  datatype Option<+T> = None | Some(value: T) {

    /** Returns the value in Some, or `default` when None. */
    function GetOr(default: T): T {
      match this
      case Some(v) => v
      case None => default
    }
  }
}
